=== FILE: README.md ===
# CORS forwarding proxy — a Dafny model

This project models the Netlify function `netlify/functions/proxy.ts`. The function
is a stateless HTTP forwarding proxy. It answers CORS preflight requests itself. It
refuses to work when no backend URL is configured. Every other request is forwarded
to the backend: the mount prefix is stripped from the path, the query is appended,
the request headers are sanitised, and a body is attached unless the method is GET
or HEAD. The backend's answer is relayed with the CORS headers merged in, and its
body is sent either as UTF-8 text or as base64, with a flag saying which. A failed
backend call becomes a 502 JSON error.

The handler is a pure function `Proxy.Handle(cfg, event, outcome)`. It returns the
request it would send (if any) together with the reply. The backend call is the
handler's only effect, so its outcome is an input. That outcome is either a complete
answer (status, headers, body octets) or an exception, which may carry a message.

Modules, one per file:

- `Wrappers` (`wrappers.dfy`): `Option`, the model of `undefined`.
- `Bytes` (`bytes.dfy`): octets.
- `Text` (`text.dfy`): ASCII case mapping, plus the prefix, suffix and substring tests (`startsWith`, `endsWith`, `includes`).
- `Base64` (`base64.dfy`): base64 as Node's `Buffer` implements it. Encoding follows section 4 of RFC 4648 (padded, standard alphabet), and a strict reader for that section pins its text down as the only canonical one. Node's decoding is lenient: it reads each UTF-16 code unit through its low octet, also accepts the URL-safe letters of section 5, skips every other octet and stops at the first `=`.
- `Utf8` (`utf8.dfy`): `Buffer.from(text)`, and `buffer.toString("utf8")` with U+FFFD replacement of maximal ill-formed subsequences (the WHATWG UTF-8 decoder).
- `Json` (`json.dfy`): `JSON.stringify({ message })`, with string escaping as in `QuoteJSONString` of ECMA-262, and a reader for the result.
- `Headers` (`headers.dfy`): the CORS set, both header sanitisers, and the object-spread merge.
- `Target` (`target.dfy`): the mount-prefix strip, `buildTargetUrl`, and `shouldHaveBody`.
- `Proxy` (`proxy.dfy`): configuration, the event and reply records, response encoding, error mapping and the handler.
- `Scenarios` (`scenarios.dfy`): concrete runs of the handler on fixed inputs.

Some consequences of the code that a reader might not expect are proved:

- The spread `{ ...CORS_HEADERS, ...sanitized }` puts the sanitised backend headers last, so on an identical name the backend's value wins over the CORS value (`Proxy.Relayed`).
- A plain-text inbound body goes through `Buffer.from(body)`, so it is sent as its UTF-8 octets (`Proxy.InboundOctets`).
- The content-type test is case-sensitive on the raw header value, so `Application/JSON` is relayed as base64 (`Scenarios.TextualExamples`, `Proxy.UpperNeverTextual`).
- Backend header names are lower case, as fetch reports them, while the CORS keys are capitalised. So a backend's own `access-control-allow-origin` sits beside the proxy's `Access-Control-Allow-Origin` in the reply; it does not replace it (`Scenarios.CaseVariantCorsHeaders`).
- `RATE_ATLAS_BACKEND_URL` set to the empty string hides `API_BASE_URL` (`Proxy.EmptyPrimaryBackend`), and `RATE_ATLAS_CORS_ORIGIN` set to the empty string gives an empty allowed origin rather than `*` (`Proxy.CorsOrigin`).
- `buildTargetUrl` appends `/suffix?query` to the base text as it is. A base URL with its own query string, such as `https://h/api?code=K`, therefore gets the path suffix and the inbound query inside that query: `https://h/api?code=K/foo?x=1` (`Target.BaseWithQuery`, `Target.BaseWithQueryExample`).
- For the same reason a path suffix that contains `?` ends the backend path there, and the inbound query lands after the suffix's own query text: base `https://h`, suffix `/a?b` and query `x=1` give path `https://h/a` and query `b?x=1` (`Target.SuffixWithQuery`, `Target.SuffixWithQueryExample`).
- Only one trailing `/` of the base is dropped, so a base ending in `//` keeps a slash before the suffix: `h//` and `/foo` give `h//foo` (`Target.DoubleSlashBase`).
- Both sanitisers copy headers with `obj[key] = value` into a plain object. For the key `__proto__` that assignment reaches the `Object.prototype.__proto__` setter, which ignores a string, so a header named `__proto__` is never forwarded and never relayed (`Headers.SanitizeRequestIsFilter`, `Headers.SanitizeResponse`).

## Model

| member | source | states |
|---|---|---|
| Proxy.FallbackBackend | netlify/functions/proxy.ts:3-5 | with `RATE_ATLAS_BACKEND_URL` unset and `API_BASE_URL` non-empty, every non-preflight request is sent to the target built on `API_BASE_URL` |
| Proxy.PrimaryBackend | netlify/functions/proxy.ts:3-5 | a non-empty `RATE_ATLAS_BACKEND_URL` is the backend whatever `API_BASE_URL` is |
| Proxy.EmptyPrimaryBackend | netlify/functions/proxy.ts:3-29 | an empty `RATE_ATLAS_BACKEND_URL` hides `API_BASE_URL`: every non-preflight request is answered 500 and nothing is sent |
| Headers.Cors | netlify/functions/proxy.ts:7-11 | the CORS set has exactly the three `Access-Control-Allow-*` names, none of which is `content-length` in any casing |
| Proxy.CorsOrigin | netlify/functions/proxy.ts:8 | the allowed origin is `RATE_ATLAS_CORS_ORIGIN` whenever it is set, even to `""`, and `*` only when it is unset |
| Proxy.IsTextualExtends | netlify/functions/proxy.ts:13 | the test is a substring test: any text before or after a textual content type (such as a `charset` parameter) keeps it textual |
| Proxy.UpperNeverTextual | netlify/functions/proxy.ts:13 | there is no case folding: the ASCII upper-cased form of any content type is never textual |
| Scenarios.TextualExamples | netlify/functions/proxy.ts:48-49 | the test is case-sensitive and ignores parameters; an absent content type (`""`) and `image/png` are binary |
| Proxy.Handle | netlify/functions/proxy.ts:15-79 | every reply carries every CORS name; no reply carries a `content-length` header in any casing; a body is only ever sent for methods other than GET/HEAD; a reply flagged base64 has a body that decodes to the backend's octets |
| Proxy.Preflight | netlify/functions/proxy.ts:16-18 | exactly `OPTIONS` gives 204, exactly the CORS headers, no body, and no backend request, whatever the configuration and the backend would do |
| Proxy.NotConfigured | netlify/functions/proxy.ts:20-29 | a missing or empty backend URL gives 500 with CORS headers plus `Content-Type: application/json` and a JSON body whose message is the fixed not-configured text; nothing is sent |
| Target.PathSuffix | netlify/functions/proxy.ts:31 | when the path starts with the mount prefix, prefix plus suffix is the path; otherwise the suffix is the whole path |
| Target.PathSuffixMounted | netlify/functions/proxy.ts:31 | any path under the mount prefix is forwarded as what follows the prefix |
| Proxy.InboundOctets | netlify/functions/proxy.ts:34-38 | no octets exactly when the event body is absent or empty; an unflagged body is sent as UTF-8 that decodes back to the body text |
| Proxy.ForwardedBody | netlify/functions/proxy.ts:34-38 | a base64-flagged body that encodes some non-empty octets is forwarded as exactly those octets; a non-empty text body as UTF-8 of that text |
| Proxy.Forward | netlify/functions/proxy.ts:40-45 | the backend request keeps the inbound method and carries a body only when the method should have one |
| Proxy.Forwarded | netlify/functions/proxy.ts:31-45 | with a backend configured, a non-preflight request is sent to the built target URL, with its own method and exactly the forwardable headers; no body for GET/HEAD in any casing, otherwise the decoded event body |
| Proxy.EncodeBody | netlify/functions/proxy.ts:47-62 | the base64 flag is set exactly when the content type is not textual; a flagged body is exactly the canonical base64 text of the backend's octets, which both the strict and the lenient reader take back to them; an unflagged body is the UTF-8 decoding of the octets |
| Proxy.Relay | netlify/functions/proxy.ts:47-78 | relayed replies carry every CORS name and no `content-length`; a base64 flag implies a backend answer whose octets the body decodes to |
| Proxy.Relayed | netlify/functions/proxy.ts:55-63 | a backend answer keeps its status; headers are the CORS set overlaid with the sanitised backend headers, so every backend header other than `content-length` (any casing) and `__proto__` keeps its name and value and each CORS header not overridden keeps its value; the body is the UTF-8 text when the content type is textual and otherwise exactly the canonical base64 text of the octets, as the flag says |
| Scenarios.JsonScenario | netlify/functions/proxy.ts:48-62 | an `application/json` answer whose octets are `{"a":1}` is relayed as the text `{"a":1}`, not flagged base64 |
| Scenarios.CaseVariantCorsHeaders | netlify/functions/proxy.ts:58-61 | a backend's lower-case `access-control-allow-origin` is kept beside the proxy's `Access-Control-Allow-Origin`, which keeps the configured origin |
| Proxy.JsonReply | netlify/functions/proxy.ts:70-77 | an error reply has its status, exactly the CORS names plus `Content-Type: application/json`, no base64 flag, and a JSON body from which the message is read back |
| Proxy.UpstreamFailure | netlify/functions/proxy.ts:64-77 | a backend exception gives 502 with CORS plus JSON content type and message `Proxy request failed: <message>`, or the unknown-error text when the exception has no message |
| Json.MessageBody | netlify/functions/proxy.ts:76 | the message is recovered exactly from the `JSON.stringify({ message })` text |
| Json.UnescapeEscape | netlify/functions/proxy.ts:27 | reading back the escaped form of any string gives that string |
| Json.UnescapeEscapeChar | netlify/functions/proxy.ts:27 | each character's escape, including the `\u00xx` form for control characters, reads back as that character whatever follows it |
| Target.BuildTargetUrl | netlify/functions/proxy.ts:81-86 | the target URL always starts with the base without its one trailing `/` |
| Target.TargetUrlParts | netlify/functions/proxy.ts:81-86 | for a base and a suffix that contain no `?`, splitting the target at its first `?` gives the normalised base joined by one `/` to the suffix without its leading `/` (or the base alone for an empty suffix), and exactly the raw query, or none when it is absent or empty |
| Target.BaseWithQuery | netlify/functions/proxy.ts:81-86 | for a base with its own query (`path?query`), the target starts with `path?` and splits into the base's path alone and everything after that `?`, so the path suffix and the inbound query land inside the base's query |
| Target.BaseWithQueryExample | netlify/functions/proxy.ts:81-86 | base `https://h/api?code=K`, path `/foo` and query `x=1` give `https://h/api?code=K/foo?x=1`, read as path `https://h/api` and query `code=K/foo?x=1` |
| Target.SuffixWithQuery | netlify/functions/proxy.ts:81-86 | for a base and a path without `?`, a suffix `path?query` gives the backend path `base/path` alone, and a query made of the suffix's query text followed, when the inbound query is non-empty, by `?` and the inbound query |
| Target.SuffixWithQueryExample | netlify/functions/proxy.ts:81-86 | base `https://h`, suffix `/a?b` and query `x=1` are read as path `https://h/a` and query `b?x=1` |
| Target.EmptySuffixTarget | netlify/functions/proxy.ts:84 | a suffix of `""` or `"/"` with no query gives exactly the normalised base, whether the query is absent or empty |
| Target.SingleSlashJoin | netlify/functions/proxy.ts:82-84 | for a non-empty suffix, the normalised base is followed by exactly one added `/` and then a character other than `/`, unless the suffix began with `//`; normalising drops at most one trailing character of the base |
| Target.DoubleSlashBase | netlify/functions/proxy.ts:82-84 | a base ending in `//` keeps one of its slashes: `h//` and `/foo` give `h//foo` |
| Target.ShouldHaveBody | netlify/functions/proxy.ts:88-90 | a body is attached exactly when the method is neither GET nor HEAD up to ASCII case |
| Target.UpperIsCaseInsensitive | netlify/functions/proxy.ts:89 | comparing the upper-cased method with an upper-case word is comparison up to ASCII case |
| Headers.SanitizeRequest | netlify/functions/proxy.ts:92-101 | the fold never outputs a blocked name (any casing), the name `__proto__`, or an empty value |
| Headers.SanitizeRequestIsFilter | netlify/functions/proxy.ts:92-101 | for a record with distinct names, the fold equals the map of every entry with a non-empty value, an unblocked name and a name other than `__proto__`, under its original name and value |
| Headers.SanitizeResponse | netlify/functions/proxy.ts:103-111 | a backend header is kept, under its name and with its value, exactly when its name is not `content-length` in any casing and not `__proto__`; no name is invented |
| Headers.Spread | netlify/functions/proxy.ts:58-61 | every key of the right-hand object is present with its value; any other key is present exactly when the left-hand object has it, with its value there |
| Scenarios.PostScenario | netlify/functions/proxy.ts:31-45 | `POST /foo?x=1` against `https://api.example.com/` is sent to `https://api.example.com/foo?x=1` with only the `content-type` header and the same body text |
| Base64.Encode | netlify/functions/proxy.ts:53 | the encoding has length 4·⌈n/3⌉, uses only alphabet and `=` characters, is accepted by the strict RFC 4648 reader as exactly the octets, and Node's lenient reader also decodes it back to them |
| Base64.EncodeCanonical | netlify/functions/proxy.ts:53 | canonical form: any text the strict RFC 4648 reader accepts for some octets (length a multiple of 4, at most two `=`, zero unused bits) is exactly the encoder's text for them |
| Base64.StrictDecodeEncode | netlify/functions/proxy.ts:53 | the strict reader accepts the rendered sextets plus padding of any octets and reads them back to those octets |
| Base64.ToSextetsTail | netlify/functions/proxy.ts:53 | the last sextet of a padded encoding has its unused low bits zero |
| Base64.ToFromSextets | netlify/functions/proxy.ts:53 | sextets with zero unused bits and no lone final sextet, reassembled into octets and split again, come back unchanged |
| Base64.DecodeEncode | netlify/functions/proxy.ts:53 | decoding the rendered sextets plus padding of any octets gives back those octets |
| Base64.SextetsRender | netlify/functions/proxy.ts:36 | the lenient reader recovers rendered sextets whatever code units follow them |
| Base64.FromToSextets | netlify/functions/proxy.ts:36 | reassembling octets from their 6-bit groups gives back the octets |
| Base64.DecodeSkipsForeign | netlify/functions/proxy.ts:36 | a character each of whose UTF-16 code units has a low octet outside both alphabets and other than `=` is ignored wherever it appears |
| Base64.SextetsLowOctets | netlify/functions/proxy.ts:36 | the lenient reader sees only low octets: code-unit sequences that agree octet for octet give the same sextets |
| Base64.DecodeLowOctets | netlify/functions/proxy.ts:36 | any two strings whose UTF-16 code units agree in their low octets decode to the same octets |
| Base64.DecodeReadsLowOctet | netlify/functions/proxy.ts:36 | a code unit above 0xFF is read through its low octet: `ŁŁ` (U+0141 twice) decodes like `AA`, to one zero octet |
| Base64.DecodeStopsAtPad | netlify/functions/proxy.ts:36 | nothing after the first `=` contributes octets |
| Base64.EncodeInjective | netlify/functions/proxy.ts:53 | different octet strings have different encodings |
| Utf8.Encode | netlify/functions/proxy.ts:37 | the UTF-8 encoding of a string has between 1 and 4 octets per character and decodes back to the string |
| Utf8.DecodeOneEncodeChar | netlify/functions/proxy.ts:52 | the decoder reads the encoder's octets for any character back as that character, consuming exactly them |

## Left out

- The `fetch` call and `arrayBuffer()` are network I/O. The backend's outcome is an input of `Proxy.Handle` (`Upstream`).
- `process.env` is read once at start-up. The model takes an `Environment` record and a `Config` as explicit values.
- The `Handler` type, `async`/`await` and promises are runtime plumbing with no effect on the result.
- Fetch `Headers` semantics are not modelled. This covers name normalisation, combining of repeated headers, iteration order and case-insensitive `get`. Backend headers are a `map<string, string>`, and the content type is looked up under the literal name `content-type`, as fetch reports names.
- Unicode `toLowerCase`/`toUpperCase` are modelled as ASCII case mapping. Outside ASCII, the only characters that map onto ASCII letters are the Kelvin sign (to `k`), dotted capital I (to `i` plus a combining dot) and a few upper-casings such as `ß`, `ı`, `ſ` and ligatures. None of them can produce `connection`, `host`, `content-length`, `GET` or `HEAD`, so all three decisions are unchanged.
- JavaScript strings are UTF-16, and Dafny strings are Unicode scalar values. So lone surrogates are not modelled: `Buffer.from` turns them into U+FFFD and `JSON.stringify` escapes them as `\udxxx`.
- Malformed base64 input follows Node's long-standing lenient reader (`Base64.Decode`), which reads the low octet of each UTF-16 code unit. Node versions that first try the WHATWG forgiving-base64 algorithm agree with it on well-formed input and may differ on some malformed input.
- `responseBuffer.toString(...)` throws when the result would exceed V8's maximum string length, and the handler then answers 502. The model has no string length limit, so such a backend body is relayed.
- An absent `event.headers` defaults to `{}` in the source. Here it is the empty entry sequence.
- The reply's `isBase64Encoded` field is absent on the 204, 500 and 502 replies. It is modelled as `false`, which is how the platform reads an absent field.
- Status codes are unbounded integers, passed through unchanged.
- Headers.SanitizeRequestIsFilter: assumes distinct names. Every JavaScript object has them, and `Record` keeps only the last entry per name.

=== FILE: base64.dfy ===
/** Base64 as Node's `Buffer` implements it. `toString("base64")` produces the padded
    encoding of section 4 of RFC 4648. `Buffer.from(s, "base64")` reads text back
    leniently: it looks at each UTF-16 code unit of `s` through its low octet, accepts
    the URL-safe letters `-` and `_` as well as `+` and `/`, skips every other octet
    and stops at the first `=`. */
module Base64 {
  import opened Wrappers
  import opened Bytes
  import opened Text

  type Sextet = v: int | 0 <= v < 64

  /** The character for a 6-bit value (Table 1 of RFC 4648). */
  function CharOf(v: Sextet): char {
    if v < 26 then ('A' as int + v) as char
    else if v < 52 then ('a' as int + (v - 26)) as char
    else if v < 62 then ('0' as int + (v - 52)) as char
    else if v == 62 then '+'
    else '/'
  }

  /** The 6-bit value of a character of the standard alphabet (Table 1 of RFC 4648);
      `None` for every other character. */
  function StdValue(c: char): Option<Sextet> {
    if 'A' <= c <= 'Z' then Some(c as int - 'A' as int)
    else if 'a' <= c <= 'z' then Some(c as int - 'a' as int + 26)
    else if '0' <= c <= '9' then Some(c as int - '0' as int + 52)
    else if c == '+' then Some(62)
    else if c == '/' then Some(63)
    else None
  }

  /** Node's decoding table, applied to the low octet of a UTF-16 code unit: the
      standard and the URL-safe alphabet (sections 4 and 5 of RFC 4648); `None` for
      every other octet. A unit above 0xFF is read through its low octet alone. */
  function UnitValue(u: int): Option<Sextet> {
    var o := u % 256;
    if 'A' as int <= o <= 'Z' as int then Some(o - 'A' as int)
    else if 'a' as int <= o <= 'z' as int then Some(o - 'a' as int + 26)
    else if '0' as int <= o <= '9' as int then Some(o - '0' as int + 52)
    else if o == '+' as int || o == '-' as int then Some(62)
    else if o == '/' as int || o == '_' as int then Some(63)
    else None
  }

  /** A code unit whose low octet is `=`, which ends lenient decoding. */
  predicate IsPadUnit(u: int) {
    u % 256 == '=' as int
  }

  /** A code unit lenient decoding passes over. */
  predicate Ignored(u: int) {
    UnitValue(u).None? && !IsPadUnit(u)
  }

  /** A character the encoder may emit. */
  predicate IsEncodingChar(c: char) {
    ('A' <= c <= 'Z') || ('a' <= c <= 'z') || ('0' <= c <= '9') || c == '+' || c == '/' || c == '='
  }

  /** Splits the octets into 6-bit groups: each 3 octets give 4 sextets, a final
      1 or 2 octets give 2 or 3 sextets whose unused low bits are zero. */
  function ToSextets(b: seq<Byte>): seq<Sextet>
    decreases |b|
  {
    if |b| >= 3 then
      [b[0] / 4, (b[0] % 4) * 16 + b[1] / 16, (b[1] % 16) * 4 + b[2] / 64, b[2] % 64]
      + ToSextets(b[3..])
    else if |b| == 2 then
      [b[0] / 4, (b[0] % 4) * 16 + b[1] / 16, (b[1] % 16) * 4]
    else if |b| == 1 then
      [b[0] / 4, (b[0] % 4) * 16]
    else
      []
  }

  function Render(q: seq<Sextet>): (s: string)
    ensures |s| == |q|
    ensures forall i :: 0 <= i < |q| ==> s[i] == CharOf(q[i])
  {
    seq(|q|, i requires 0 <= i < |q| => CharOf(q[i]))
  }

  /** The `=` characters that complete the last 4-character group. */
  function Padding(n: nat): string {
    if n % 3 == 1 then "==" else if n % 3 == 2 then "=" else ""
  }

  /** `Buffer#toString("base64")`: the padded base64 text of `b`. It is the text the
      strict reader of RFC 4648 section 4 accepts for `b` (and by `EncodeCanonical`
      the only one), and Node's lenient reader also reads it back to `b`. */
  function Encode(b: seq<Byte>): (s: string)
    ensures |s| == 4 * ((|b| + 2) / 3)
    ensures forall i :: 0 <= i < |s| ==> IsEncodingChar(s[i])
    ensures StrictDecode(s) == Some(b)
    ensures Decode(s) == b
  {
    ToSextetsLength(b);
    PaddedLength(|b|);
    StrictDecodeEncode(b);
    DecodeEncode(b);
    Render(ToSextets(b)) + Padding(|b|)
  }

  /** The values of the code units that carry sextets, up to the first unit whose low
      octet is `=`; all other units are skipped. */
  function Sextets(u: seq<int>): seq<Sextet>
    decreases |u|
  {
    if u == [] || IsPadUnit(u[0]) then []
    else match UnitValue(u[0])
      case Some(v) => [v] + Sextets(u[1..])
      case None => Sextets(u[1..])
  }

  /** Reassembles octets from sextets: 4 sextets give 3 octets, a final 3 or 2 give
      2 or 1, a single leftover sextet gives nothing. */
  function FromSextets(q: seq<Sextet>): seq<Byte>
    decreases |q|
  {
    if |q| >= 4 then Octets(q[..4]) + FromSextets(q[4..]) else Octets(q)
  }

  /** The octets one group of at most four sextets carries: 3 for a full group, 2 or
      1 for a final group of 3 or 2, none for a lone sextet. */
  function Octets(g: seq<Sextet>): seq<Byte>
    requires |g| <= 4
  {
    if |g| == 4 then
      var a, b, c, d: int := g[0], g[1], g[2], g[3];
      [a * 4 + b / 16, (b % 16) * 16 + c / 4, (c % 4) * 64 + d]
    else if |g| == 3 then
      var a, b, c: int := g[0], g[1], g[2];
      [a * 4 + b / 16, (b % 16) * 16 + c / 4]
    else if |g| == 2 then
      var a, b: int := g[0], g[1];
      [a * 4 + b / 16]
    else
      []
  }

  /** `Buffer.from(s, "base64")`. */
  function Decode(s: string): seq<Byte> {
    FromSextets(Sextets(CodeUnits(s)))
  }

  // The strict reader of RFC 4648 section 4, the reference for what the encoder emits.

  /** The number of trailing `=` the strict reader strips (at most two). */
  function PadCount(s: string): nat {
    if |s| >= 2 && s[|s| - 2] == '=' && s[|s| - 1] == '=' then 2
    else if |s| >= 1 && s[|s| - 1] == '=' then 1
    else 0
  }

  /** The values of a string made only of standard-alphabet characters. */
  function Values(data: string): Option<seq<Sextet>>
    decreases |data|
  {
    if data == [] then Some([])
    else match (StdValue(data[0]), Values(data[1..]))
      case (Some(v), Some(rest)) => Some([v] + rest)
      case _ => None
  }

  /** The bits of the last sextet that fall outside the last octet are zero, as
      section 3.5 of RFC 4648 requires of canonical text. */
  predicate TailBitsZero(q: seq<Sextet>) {
    && (|q| % 4 == 2 ==> q[|q| - 1] % 16 == 0)
    && (|q| % 4 == 3 ==> q[|q| - 1] % 4 == 0)
  }

  /** Strict decoding: a length divisible by 4, standard-alphabet characters followed
      by at most two `=`, and zero unused bits; `None` for any other text. */
  function StrictDecode(s: string): Option<seq<Byte>> {
    if |s| % 4 != 0 then None
    else match Values(s[..|s| - PadCount(s)])
      case Some(q) => if TailBitsZero(q) then Some(FromSextets(q)) else None
      case None => None
  }

  lemma {:induction false} ToSextetsLength(b: seq<Byte>)
    ensures |ToSextets(b)| == 4 * (|b| / 3) + (if |b| % 3 == 0 then 0 else |b| % 3 + 1)
    decreases |b|
  {
    if |b| >= 3 {
      ToSextetsLength(b[3..]);
      assert |b[3..]| / 3 == |b| / 3 - 1 && |b[3..]| % 3 == |b| % 3;
    }
  }

  lemma PaddedLength(n: nat)
    ensures 4 * (n / 3) + (if n % 3 == 0 then 0 else n % 3 + 1) + |Padding(n)| == 4 * ((n + 2) / 3)
  {
  }

  lemma ValueOfCharOf(v: Sextet)
    ensures UnitValue(CharOf(v) as int) == Some(v) && !IsPadUnit(CharOf(v) as int)
    ensures StdValue(CharOf(v)) == Some(v)
    ensures CharOf(v) != '='
  {
  }

  lemma CharOfStdValue(c: char, v: Sextet)
    requires StdValue(c) == Some(v)
    ensures CharOf(v) == c
  {
  }

  /** Reading rendered sextets back yields them, whatever units follow. */
  lemma {:induction false} SextetsRender(q: seq<Sextet>, w: seq<int>)
    ensures Sextets(CodeUnits(Render(q)) + w) == q + Sextets(w)
    decreases |q|
  {
    if q != [] {
      var r := Render(q);
      assert r[1..] == Render(q[1..]);
      ValueOfCharOf(q[0]);
      assert CodeUnits(r) == [CharOf(q[0]) as int] + CodeUnits(Render(q[1..]));
      var u := CodeUnits(r) + w;
      assert u[1..] == CodeUnits(Render(q[1..])) + w;
      SextetsRender(q[1..], w);
      assert [q[0]] + (q[1..] + Sextets(w)) == q + Sextets(w);
    } else {
      assert CodeUnits(Render(q)) + w == w;
    }
  }

  lemma {:induction false} FromToSextets(b: seq<Byte>)
    ensures FromSextets(ToSextets(b)) == b
    decreases |b|
  {
    if |b| >= 3 {
      var g := [b[0] / 4, (b[0] % 4) * 16 + b[1] / 16, (b[1] % 16) * 4 + b[2] / 64, b[2] % 64];
      var q := g + ToSextets(b[3..]);
      assert q[..4] == g && q[4..] == ToSextets(b[3..]);
      FromToSextets(b[3..]);
      assert b == [b[0], b[1], b[2]] + b[3..];
    }
  }

  /** The round trip through Node's reader: decoding the encoding of any octets gives
      back exactly those octets. */
  lemma {:induction false} DecodeEncode(b: seq<Byte>)
    ensures Decode(Render(ToSextets(b)) + Padding(|b|)) == b
  {
    var p := Padding(|b|);
    CodeUnitsAppend(Render(ToSextets(b)), p);
    SextetsRender(ToSextets(b), CodeUnits(p));
    PaddingReadsNothing(|b|);
    assert ToSextets(b) + [] == ToSextets(b);
    FromToSextets(b);
  }

  lemma PaddingReadsNothing(n: nat)
    ensures Sextets(CodeUnits(Padding(n))) == []
  {
  }

  /** The last sextet of an encoding with padding has zero unused bits. */
  lemma {:induction false} ToSextetsTail(b: seq<Byte>)
    ensures TailBitsZero(ToSextets(b))
    decreases |b|
  {
    if |b| >= 3 {
      ToSextetsTail(b[3..]);
      var t := ToSextets(b[3..]);
      var g := [b[0] / 4, (b[0] % 4) * 16 + b[1] / 16, (b[1] % 16) * 4 + b[2] / 64, b[2] % 64];
      assert ToSextets(b) == g + t;
      assert |g + t| % 4 == |t| % 4;
      if |t| > 0 {
        assert (g + t)[|g + t| - 1] == t[|t| - 1];
      }
    }
  }

  lemma {:induction false} ValuesRender(q: seq<Sextet>)
    ensures Values(Render(q)) == Some(q)
    decreases |q|
  {
    if q != [] {
      ValueOfCharOf(q[0]);
      assert Render(q)[1..] == Render(q[1..]);
      ValuesRender(q[1..]);
      assert [q[0]] + q[1..] == q;
    }
  }

  lemma {:induction false} RenderValues(data: string, q: seq<Sextet>)
    requires Values(data) == Some(q)
    ensures Render(q) == data
    decreases |data|
  {
    if data != [] {
      var v := StdValue(data[0]).value;
      var rest := Values(data[1..]).value;
      CharOfStdValue(data[0], v);
      RenderValues(data[1..], rest);
      assert Render(q) == [CharOf(v)] + Render(rest);
      assert data == [data[0]] + data[1..];
    }
  }

  /** The strict reader strips exactly the encoder's padding. */
  lemma PadCountEncode(b: seq<Byte>)
    ensures PadCount(Render(ToSextets(b)) + Padding(|b|)) == |Padding(|b|)|
  {
    var q := ToSextets(b);
    var s := Render(q) + Padding(|b|);
    ToSextetsLength(b);
    if |q| > 0 {
      ValueOfCharOf(q[|q| - 1]);
      assert Render(q)[|q| - 1] == CharOf(q[|q| - 1]);
    }
    if |b| % 3 == 1 {
      assert s[|s| - 2..] == "==";
    } else if |b| % 3 == 2 {
      assert s[|s| - 1] == '=' && s[|s| - 2] == CharOf(q[|q| - 1]);
    } else if |s| >= 1 {
      assert s[|s| - 1] == CharOf(q[|q| - 1]);
    }
  }

  /** The strict reader accepts the encoder's text and reads it back to the octets. */
  lemma StrictDecodeEncode(b: seq<Byte>)
    ensures StrictDecode(Render(ToSextets(b)) + Padding(|b|)) == Some(b)
  {
    var q := ToSextets(b);
    var s := Render(q) + Padding(|b|);
    EncodedLength(b);
    PadCountEncode(b);
    var data := s[..|s| - PadCount(s)];
    assert data == Render(q);
    ValuesRender(q);
    ToSextetsTail(b);
    FromToSextets(b);
  }

  lemma EncodedLength(b: seq<Byte>)
    ensures |Render(ToSextets(b)) + Padding(|b|)| % 4 == 0
  {
    var q := ToSextets(b);
    ToSextetsLength(b);
    PaddedLength(|b|);
    var len := |Render(q) + Padding(|b|)|;
    assert len == |q| + |Padding(|b|)|;
    MultipleOfFour(len, (|b| + 2) / 3);
  }

  lemma MultipleOfFour(len: int, k: int)
    requires len == 4 * k
    ensures len % 4 == 0
  {
  }

  lemma GroupInverse(a: Sextet, b: Sextet, c: Sextet, d: Sextet)
    ensures var x, y, z := a * 4 + b / 16, (b % 16) * 16 + c / 4, (c % 4) * 64 + d;
      && x / 4 == a && (x % 4) * 16 + y / 16 == b && (y % 16) * 4 + z / 64 == c && z % 64 == d
  {
  }

  lemma TailInverse(a: Sextet, b: Sextet, c: Sextet)
    ensures var x, y := a * 4 + b / 16, (b % 16) * 16 + c / 4;
      && x / 4 == a && (x % 4) * 16 + y / 16 == b && (c % 4 == 0 ==> (y % 16) * 4 == c)
    ensures var x := a * 4 + b / 16;
      x / 4 == a && (b % 16 == 0 ==> (x % 4) * 16 == b)
  {
  }

  /** Octets reassembled from sextets with zero unused bits split back into those
      sextets. */
  lemma {:induction false} ToFromSextets(q: seq<Sextet>)
    requires |q| % 4 != 1 && TailBitsZero(q)
    ensures ToSextets(FromSextets(q)) == q
    decreases |q|
  {
    if |q| >= 4 {
      var rest := q[4..];
      assert |rest| % 4 == |q| % 4;
      if |rest| > 0 {
        assert rest[|rest| - 1] == q[|q| - 1];
      }
      ToFromSextets(rest);
      GroupToSextets(q[..4], FromSextets(rest));
      assert q == q[..4] + rest;
    } else if |q| == 3 {
      TailInverse(q[0], q[1], q[2]);
    } else if |q| == 2 {
      TailInverse(q[0], q[1], 0);
    }
  }

  /** One full group of 4 sextets, reassembled and split again, comes back unchanged
      in front of whatever octets follow. */
  lemma GroupToSextets(g: seq<Sextet>, rest: seq<Byte>)
    requires |g| == 4
    ensures ToSextets(Octets(g) + rest) == g + ToSextets(rest)
  {
    GroupInverse(g[0], g[1], g[2], g[3]);
    var o := Octets(g) + rest;
    assert o[3..] == rest;
  }

  /** Every 4 sextets give 3 octets, and a final 2 or 3 give 1 or 2. */
  lemma {:induction false} FromSextetsLength(q: seq<Sextet>)
    requires |q| % 4 != 1
    ensures |FromSextets(q)| == 3 * (|q| / 4) + (if |q| % 4 == 0 then 0 else |q| % 4 - 1)
    decreases |q|
  {
    if |q| >= 4 {
      FromSextetsLength(q[4..]);
      assert |q[4..]| / 4 == |q| / 4 - 1 && |q[4..]| % 4 == |q| % 4;
    }
  }

  lemma GroupCount(len: int, k: int, count: int)
    requires len % 4 == 0 && 0 <= k <= 2 && count == len - k
    ensures count % 4 == (if k == 0 then 0 else 4 - k)
  {
  }

  lemma PaddingOfCount(count: nat, n: nat)
    requires count % 4 != 1
    requires n == 3 * (count / 4) + (if count % 4 == 0 then 0 else count % 4 - 1)
    ensures |Padding(n)| == (if count % 4 == 0 then 0 else 4 - count % 4)
  {
  }

  /** Canonical form: the encoder's text is the only text the strict reader accepts
      for given octets. */
  lemma EncodeCanonical(s: string, b: seq<Byte>)
    requires StrictDecode(s) == Some(b)
    ensures s == Encode(b)
  {
    var k := PadCount(s);
    var data := s[..|s| - k];
    var q := Values(data).value;
    assert |s| % 4 == 0 && TailBitsZero(q) && b == FromSextets(q);
    RenderValues(data, q);
    GroupCount(|s|, k, |q|);
    ToFromSextets(q);
    FromSextetsLength(q);
    PaddingOfCount(|q|, |b|);
    assert |Padding(|b|)| == k;
    PadSuffix(s);
    PaddingByLength(|b|);
    assert ToSextets(b) == q;
  }

  lemma PaddingByLength(n: nat)
    ensures Padding(n) == (if |Padding(n)| == 2 then "==" else if |Padding(n)| == 1 then "=" else "")
  {
  }

  /** Text splits into what precedes its padding and that padding. */
  lemma PadSuffix(s: string)
    ensures s == s[..|s| - PadCount(s)] + (if PadCount(s) == 2 then "==" else if PadCount(s) == 1 then "=" else "")
  {
  }

  lemma {:induction false} SextetsSkip(a: seq<int>, w: seq<int>, z: seq<int>)
    requires forall i :: 0 <= i < |w| ==> Ignored(w[i])
    ensures Sextets(a + w + z) == Sextets(a + z)
    decreases |a|, |w|
  {
    if a == [] {
      if w == [] {
        assert a + w + z == a + z;
      } else {
        assert (a + w + z)[1..] == a + w[1..] + z;
        SextetsSkip(a, w[1..], z);
      }
    } else {
      assert (a + w + z)[1..] == a[1..] + w + z;
      assert (a + z)[1..] == a[1..] + z;
      SextetsSkip(a[1..], w, z);
    }
  }

  /** Lenient reading: a character all of whose code units have a low octet outside
      both alphabets and other than `=` (a line break, a space) is ignored wherever it
      appears. */
  lemma DecodeSkipsForeign(s: string, c: char, t: string)
    requires forall i :: 0 <= i < |UnitsOf(c)| ==> Ignored(UnitsOf(c)[i])
    ensures Decode(s + [c] + t) == Decode(s + t)
  {
    CodeUnitsAppend(s + [c], t);
    CodeUnitsAppend(s, [c]);
    CodeUnitsAppend(s, t);
    assert CodeUnits([c]) == UnitsOf(c) by {
      assert [c][1..] == [];
    }
    SextetsSkip(CodeUnits(s), UnitsOf(c), CodeUnits(t));
  }

  /** The lenient reader sees only the low octet of each code unit: two unit
      sequences that agree octet for octet give the same sextets. */
  lemma {:induction false} SextetsLowOctets(u: seq<int>, v: seq<int>)
    requires |u| == |v|
    requires forall i :: 0 <= i < |u| ==> u[i] % 256 == v[i] % 256
    ensures Sextets(u) == Sextets(v)
    decreases |u|
  {
    if u != [] {
      assert UnitValue(u[0]) == UnitValue(v[0]);
      SextetsLowOctets(u[1..], v[1..]);
    }
  }

  /** Any two strings whose code units agree in their low octets decode alike. */
  lemma DecodeLowOctets(s: string, t: string)
    requires |CodeUnits(s)| == |CodeUnits(t)|
    requires forall i :: 0 <= i < |CodeUnits(s)| ==> CodeUnits(s)[i] % 256 == CodeUnits(t)[i] % 256
    ensures Decode(s) == Decode(t)
  {
    SextetsLowOctets(CodeUnits(s), CodeUnits(t));
  }

  /** A character outside Latin-1 is read through the low octet of its code unit:
      `Ł` (U+0141) counts as `A` (0x41). */
  lemma DecodeReadsLowOctet()
    ensures Decode([0x141 as char, 0x141 as char]) == Decode("AA") == [0]
  {
    var l := 0x141 as char;
    assert CodeUnits([l, l]) == [0x141, 0x141] by {
      assert [l, l][1..] == [l];
      assert [l][1..] == [];
    }
    assert CodeUnits("AA") == [0x41, 0x41] by {
      assert "AA"[1..] == "A";
      assert "A"[1..] == [];
    }
    assert Sextets([0x41, 0x41]) == [0, 0] by {
      assert [0x41, 0x41][1..] == [0x41];
      assert [0x41][1..] == [];
    }
    DecodeLowOctets([l, l], "AA");
  }

  lemma {:induction false} SextetsStop(a: seq<int>, w: seq<int>)
    ensures Sextets(a + ['=' as int] + w) == Sextets(a)
    decreases |a|
  {
    if a != [] {
      assert (a + ['=' as int] + w)[1..] == a[1..] + ['=' as int] + w;
      SextetsStop(a[1..], w);
    }
  }

  /** Reading stops at the first `=`: nothing after it contributes octets. */
  lemma DecodeStopsAtPad(s: string, t: string)
    ensures Decode(s + "=" + t) == Decode(s)
  {
    CodeUnitsAppend(s + "=", t);
    CodeUnitsAppend(s, "=");
    assert CodeUnits("=") == ['=' as int];
    SextetsStop(CodeUnits(s), CodeUnits(t));
  }

  /** Different octet strings never share an encoding. */
  lemma EncodeInjective(a: seq<Byte>, b: seq<Byte>)
    requires Encode(a) == Encode(b)
    ensures a == b
  {
  }
}

=== FILE: bytes.dfy ===
/** Octets, as carried by a Node `Buffer`. */
module Bytes {

  type Byte = b: int | 0 <= b < 0x100
}

=== FILE: headers.dfy ===
/** Header handling of the proxy: the fixed CORS set, the request-side sanitiser (a
    `reduce` over the entries of the inbound header record), the response-side
    sanitiser and the object-spread merge that builds reply headers. */
module Headers {
  import opened Wrappers
  import opened Text

  /** One entry of the inbound header record, in `Object.entries` order; the value
      may be `undefined`. */
  type Entry = (string, Option<string>)

  /** A JavaScript object never has two entries with the same key. */
  predicate DistinctNames(entries: seq<Entry>) {
    forall i, j :: 0 <= i < j < |entries| ==> entries[i].0 != entries[j].0
  }

  /** The record the entries enumerate (a later entry for a key replaces an earlier one,
      which never happens when names are distinct). */
  function Record(entries: seq<Entry>): (r: map<string, Option<string>>)
    ensures forall i :: 0 <= i < |entries| ==> entries[i].0 in r
    ensures forall k :: k in r ==> exists i :: 0 <= i < |entries| && entries[i].0 == k
    decreases |entries|
  {
    if entries == [] then map[]
    else
      var last := entries[|entries| - 1];
      Record(entries[..|entries| - 1])[last.0 := last.1]
  }

  /** Names the proxy never forwards to the backend, compared after lower-casing. */
  const RequestBlocked: set<string> := {"connection", "host", "content-length"}

  /** Names the proxy never relays back to the caller, compared after lower-casing. */
  const ResponseBlocked: set<string> := {"content-length"}

  /** The one key a plain object cannot hold as its own property: assigning a string
      to `obj["__proto__"]` goes to the `Object.prototype.__proto__` setter, which
      ignores anything that is not an object, so the assignment is lost. */
  const ProtoKey: string := "__proto__"

  /** An inbound header is forwarded when its value is present and non-empty (a
      truthy string) and its lower-cased name is not blocked; `acc[key] = value`
      drops the key `__proto__`. */
  predicate Forwardable(name: string, value: Option<string>) {
    value.Some? && value.value != "" && Lower(name) !in RequestBlocked && name != ProtoKey
  }

  /** `sanitizeRequestHeaders`: the left fold of the entries into an accumulator,
      setting `acc[key] = value` for each forwardable entry. */
  function SanitizeRequest(entries: seq<Entry>): (r: map<string, string>)
    ensures forall k :: k in r ==> Lower(k) !in RequestBlocked && r[k] != "" && k != ProtoKey
    decreases |entries|
  {
    if entries == [] then map[]
    else
      var acc := SanitizeRequest(entries[..|entries| - 1]);
      var (key, value) := entries[|entries| - 1];
      if Forwardable(key, value) then acc[key := value.value] else acc
  }

  /** Reference definition: the forwardable part of the header record. */
  function ForwardablePart(record: map<string, Option<string>>): map<string, string> {
    map k | k in record && Forwardable(k, record[k]) :: record[k].value
  }

  /** The fold computes exactly the forwardable part of the record: a header reaches
      the backend, under its original name and with its original value, if and only if
      its value is non-empty and its name is not blocked in any casing. */
  lemma {:induction false} SanitizeRequestIsFilter(entries: seq<Entry>)
    requires DistinctNames(entries)
    ensures SanitizeRequest(entries) == ForwardablePart(Record(entries))
    decreases |entries|
  {
    if entries != [] {
      var init := entries[..|entries| - 1];
      var (key, value) := entries[|entries| - 1];
      assert DistinctNames(init);
      SanitizeRequestIsFilter(init);
      assert key !in Record(init);
      ForwardablePartUpdate(Record(init), key, value);
    }
  }

  lemma ForwardablePartUpdate(record: map<string, Option<string>>, key: string, value: Option<string>)
    requires key !in record
    ensures ForwardablePart(record[key := value]) ==
      if Forwardable(key, value) then ForwardablePart(record)[key := value.value] else ForwardablePart(record)
  {
  }

  /** `sanitizeResponseHeaders`: every upstream header except those named
      `content-length` in any casing, under its original name and value; as on the
      request side, `result[key] = value` drops the key `__proto__`. */
  function SanitizeResponse(upstream: map<string, string>): (r: map<string, string>)
    ensures r.Keys <= upstream.Keys
    ensures forall k :: k in r ==> r[k] == upstream[k]
    ensures forall k :: k in upstream ==> (k in r <==> Lower(k) !in ResponseBlocked && k != ProtoKey)
  {
    map k | k in upstream && Lower(k) !in ResponseBlocked && k != ProtoKey :: upstream[k]
  }

  /** `{ ...base, ...over }`: the properties of `over` are copied last, so each of
      them is present with its own value; any other key is present exactly when
      `base` has it, with the value from `base`. */
  function Spread(base: map<string, string>, over: map<string, string>): (r: map<string, string>)
    ensures forall k :: k in over ==> k in r && r[k] == over[k]
    ensures forall k :: k !in over ==> (k in r <==> k in base)
    ensures forall k :: k !in over && k in r ==> r[k] == base[k]
  {
    base + over
  }

  const AllowHeaders: string := "Content-Type, Authorization"
  const AllowMethods: string := "GET,POST,PUT,PATCH,DELETE,OPTIONS"

  /** `CORS_HEADERS` for a given allowed origin. */
  function Cors(origin: string): (r: map<string, string>)
    ensures r.Keys == {"Access-Control-Allow-Origin", "Access-Control-Allow-Headers", "Access-Control-Allow-Methods"}
    ensures forall k :: k in r ==> Lower(k) !in ResponseBlocked
  {
    map[
      "Access-Control-Allow-Origin" := origin,
      "Access-Control-Allow-Headers" := AllowHeaders,
      "Access-Control-Allow-Methods" := AllowMethods
    ]
  }
}

=== FILE: json.dfy ===
/** The JSON error bodies of the proxy: `JSON.stringify({ message })`, whose string
    value is quoted as in the `QuoteJSONString` operation of ECMA-262, together with a
    reader that recovers the message from such a body. */
module Json {
  import opened Wrappers

  const Backspace: char := 8 as char
  const FormFeed: char := 12 as char

  /** Lower-case hexadecimal digit, as `\u00xx` escapes are written. */
  function HexDigit(d: int): char
    requires 0 <= d < 16
  {
    if d < 10 then ('0' as int + d) as char else ('a' as int + (d - 10)) as char
  }

  /** The value of a hexadecimal digit of either case. */
  function HexValue(c: char): Option<int> {
    if '0' <= c <= '9' then Some(c as int - '0' as int)
    else if 'a' <= c <= 'f' then Some(c as int - 'a' as int + 10)
    else if 'A' <= c <= 'F' then Some(c as int - 'A' as int + 10)
    else None
  }

  /** How one character appears inside a JSON string literal. */
  function EscapeChar(c: char): string {
    if c == '"' then "\\\""
    else if c == '\\' then "\\\\"
    else if c == Backspace then "\\b"
    else if c == '\t' then "\\t"
    else if c == '\n' then "\\n"
    else if c == FormFeed then "\\f"
    else if c == '\r' then "\\r"
    else if (c as int) < 0x20 then "\\u00" + [HexDigit(c as int / 16), HexDigit(c as int % 16)]
    else [c]
  }

  function Escape(s: string): string
    decreases |s|
  {
    if s == [] then "" else EscapeChar(s[0]) + Escape(s[1..])
  }

  /** `JSON.stringify` of a string value. */
  function Quote(s: string): string {
    "\"" + Escape(s) + "\""
  }

  /** `JSON.stringify({ message })`. */
  function MessageBody(message: string): (doc: string)
    ensures MessageOf(doc) == Some(message)
  {
    var doc := "{\"message\":" + Quote(message) + "}";
    assert doc == MessageOpen + Escape(message) + MessageClose;
    UnescapeEscape(message);
    doc
  }

  const MessageOpen: string := "{\"message\":\""
  const MessageClose: string := "\"}"

  /** The character denoted by the escape sequence that starts `t` after its
      backslash, with the sequence's length; `None` when it is not a valid escape or
      denotes a surrogate code unit. */
  function EscapeAt(t: string): Option<(char, nat)>
    requires |t| >= 1
  {
    var e := t[0];
    if e == '"' || e == '\\' || e == '/' then Some((e, 1))
    else if e == 'b' then Some((Backspace, 1))
    else if e == 't' then Some(('\t', 1))
    else if e == 'n' then Some(('\n', 1))
    else if e == 'f' then Some((FormFeed, 1))
    else if e == 'r' then Some(('\r', 1))
    else if e == 'u' && |t| >= 5 then
      match (HexValue(t[1]), HexValue(t[2]), HexValue(t[3]), HexValue(t[4]))
      case (Some(a), Some(b), Some(c), Some(d)) =>
        var n := ((a * 16 + b) * 16 + c) * 16 + d;
        if 0 <= n < 0xD800 || 0xE000 <= n < 0x10000 then Some((n as char, 5)) else None
      case _ => None
    else None
  }

  /** Reads the contents of a JSON string literal (without its quotes) back to the
      string it denotes; `None` when it holds a bare quote, a bare control character
      or a malformed escape. */
  function Unescape(t: string): Option<string>
    decreases |t|
  {
    if t == [] then Some([])
    else if t[0] == '"' || (t[0] as int) < 0x20 then None
    else if t[0] != '\\' then
      match Unescape(t[1..])
      case Some(rest) => Some([t[0]] + rest)
      case None => None
    else if |t| < 2 then None
    else match EscapeAt(t[1..])
      case None => None
      case Some((c, k)) =>
        match Unescape(t[1 + k..])
        case Some(rest) => Some([c] + rest)
        case None => None
  }

  /** The message of a document of the form `{"message":"..."}`. */
  function MessageOf(doc: string): Option<string> {
    if |doc| >= |MessageOpen| + |MessageClose|
       && doc[..|MessageOpen|] == MessageOpen
       && doc[|doc| - |MessageClose|..] == MessageClose
    then Unescape(doc[|MessageOpen|..|doc| - |MessageClose|])
    else None
  }

  /** Each escaped character is read back as itself, whatever follows it. */
  lemma UnescapeEscapeChar(c: char, rest: string)
    ensures Unescape(EscapeChar(c) + rest) ==
      match Unescape(rest) case Some(r) => Some([c] + r) case None => None
  {
  }

  /** Quoting round trip: the reader recovers every string from its escaped form. */
  lemma {:induction false} UnescapeEscape(s: string)
    ensures Unescape(Escape(s)) == Some(s)
    decreases |s|
  {
    if s != [] {
      UnescapeEscapeChar(s[0], Escape(s[1..]));
      UnescapeEscape(s[1..]);
      assert [s[0]] + s[1..] == s;
    }
  }
}

=== FILE: proxy.dfy ===
/** The proxy function itself: a pure function from the configuration, the inbound
    event and the backend's answer to the request it would send and the reply it
    returns. The backend call is the only effect of the handler; its outcome is an
    input here. */
module Proxy {
  import opened Wrappers
  import opened Bytes
  import opened Text
  import Base64
  import Utf8
  import Json
  import opened Headers
  import opened Target

  /** The environment variables the function reads at start-up. */
  datatype Environment = Environment(
    rateAtlasBackendUrl: Option<string>,
    apiBaseUrl: Option<string>,
    rateAtlasCorsOrigin: Option<string>)

  datatype Config = Config(backendUrl: Option<string>, corsOrigin: Option<string>)

  /** `RATE_ATLAS_BACKEND_URL ?? API_BASE_URL` and `RATE_ATLAS_CORS_ORIGIN`: the first
      variable is used whenever it is set, even to the empty string. */
  function ConfigOf(env: Environment): (cfg: Config)
    ensures env.rateAtlasBackendUrl.Some? ==> cfg.backendUrl == env.rateAtlasBackendUrl
    ensures env.rateAtlasBackendUrl.None? ==> cfg.backendUrl == env.apiBaseUrl
    ensures cfg.corsOrigin == env.rateAtlasCorsOrigin
  {
    Config(if env.rateAtlasBackendUrl.Some? then env.rateAtlasBackendUrl else env.apiBaseUrl,
           env.rateAtlasCorsOrigin)
  }

  /** The CORS headers of every reply; the origin defaults to `*`. */
  function CorsOf(cfg: Config): map<string, string> {
    Cors(cfg.corsOrigin.Coalesce("*"))
  }

  /** The event the hosting platform hands to the function. */
  datatype Inbound = Inbound(
    httpMethod: string,
    path: string,
    rawQuery: Option<string>,
    headers: seq<Entry>,
    body: Option<string>,
    isBase64Encoded: bool)

  /** The request sent to the backend. */
  datatype Outbound = Outbound(
    url: string,
    verb: string,
    headers: map<string, string>,
    body: Option<seq<Byte>>)

  /** What the backend call produced: a complete response, or an exception, which
      carries a message exactly when it is an `Error` instance. */
  datatype Upstream =
    | Answered(status: int, headers: map<string, string>, body: seq<Byte>)
    | Threw(message: Option<string>)

  /** The reply handed back to the hosting platform. An absent `isBase64Encoded`
      field reads as `false`. */
  datatype Reply = Reply(
    statusCode: int,
    headers: map<string, string>,
    body: Option<string>,
    isBase64Encoded: bool)

  /** One invocation: the backend request, if one is made, and the reply. */
  datatype Exchange = Exchange(sent: Option<Outbound>, reply: Reply)

  const TextualTypes: seq<string> := ["application/json", "text/", "application/javascript", "application/xml"]

  const NotConfiguredMessage: string := "RATE_ATLAS_BACKEND_URL env var is not configured."
  const FailurePrefix: string := "Proxy request failed: "
  const UnknownFailureMessage: string := "Proxy request failed due to an unknown error."

  /** `TEXTUAL_TYPES.some(type => contentType.includes(type))`, over the raw value,
      with no case folding. */
  function IsTextual(contentType: string): (r: bool)
    ensures r <==> exists i :: 0 <= i < |TextualTypes| && Includes(contentType, TextualTypes[i])
  {
    Includes(contentType, TextualTypes[0]) || Includes(contentType, TextualTypes[1])
    || Includes(contentType, TextualTypes[2]) || Includes(contentType, TextualTypes[3])
  }

  /** The test is a substring test: whatever surrounds a textual content type (a
      `; charset=...` parameter after it, anything before it) keeps it textual. */
  lemma IsTextualExtends(before: string, contentType: string, after: string)
    requires IsTextual(contentType)
    ensures IsTextual(before + contentType + after)
  {
    var i :| 0 <= i < |TextualTypes| && Includes(contentType, TextualTypes[i]);
    var t := TextualTypes[i];
    var j :| 0 <= j <= |contentType| - |t| && OccursAt(contentType, t, j);
    var whole := before + contentType + after;
    var mid := whole[|before|..|before| + |contentType|];
    assert mid == contentType;
    assert contentType[j..j + |t|] == t;
    assert whole[|before| + j..|before| + j + |t|] == mid[j..j + |t|];
    assert OccursAt(whole, t, |before| + j);
  }

  /** There is no case folding: a content type in capitals is never textual, because
      every textual type starts with a lower-case letter and upper-casing leaves
      none. */
  lemma UpperNeverTextual(contentType: string)
    ensures !IsTextual(Upper(contentType))
  {
    var u := Upper(contentType);
    forall i, j | 0 <= i < |TextualTypes| && 0 <= j <= |u| - |TextualTypes[i]|
      ensures !OccursAt(u, TextualTypes[i], j)
    {
      assert 'a' <= TextualTypes[i][0] <= 'z';
    }
  }

  /** The backend's content type, `""` when it sent none. */
  function ContentType(headers: map<string, string>): string {
    if "content-type" in headers then headers["content-type"] else ""
  }

  /** The body handed to the platform and its `isBase64Encoded` flag: UTF-8 text for
      a textual content type, base64 otherwise. The flag always tells how to read the
      body back into the backend's octets. */
  function EncodeBody(contentType: string, octets: seq<Byte>): (r: (string, bool))
    ensures r.1 <==> !IsTextual(contentType)
    ensures r.1 ==> Base64.StrictDecode(r.0) == Some(octets) && Base64.Decode(r.0) == octets
    ensures r.1 ==> r.0 == Base64.Encode(octets)
    ensures !r.1 ==> r.0 == Utf8.Decode(octets)
  {
    if IsTextual(contentType) then (Utf8.Decode(octets), false) else (Base64.Encode(octets), true)
  }

  /** The octets to forward: none when the event body is absent or empty (falsy),
      otherwise its base64 decoding when the platform flagged it so, else its UTF-8
      encoding. */
  function InboundOctets(body: Option<string>, isBase64Encoded: bool): (r: Option<seq<Byte>>)
    ensures r.None? <==> body.None? || body.value == ""
    ensures r.Some? && !isBase64Encoded ==> Utf8.Decode(r.value) == body.value
  {
    if body.None? || body.value == "" then None
    else if isBase64Encoded then Some(Base64.Decode(body.value))
    else Some(Utf8.Encode(body.value))
  }

  /** A JSON error reply: CORS headers plus a JSON content type. */
  function JsonReply(cfg: Config, status: int, message: string): (r: Reply)
    ensures r.statusCode == status && !r.isBase64Encoded
    ensures r.body.Some? && Json.MessageOf(r.body.value) == Some(message)
    ensures r.headers.Keys == CorsOf(cfg).Keys + {"Content-Type"}
    ensures forall k :: k in CorsOf(cfg) ==> r.headers[k] == CorsOf(cfg)[k]
    ensures r.headers["Content-Type"] == "application/json"
    ensures forall k :: k in r.headers ==> Lower(k) !in ResponseBlocked
  {
    Reply(status, Spread(CorsOf(cfg), map["Content-Type" := "application/json"]),
          Some(Json.MessageBody(message)), false)
  }

  /** The message reported for an exception from the backend call. */
  function FailureMessage(error: Option<string>): string {
    match error
    case Some(m) => FailurePrefix + m
    case None => UnknownFailureMessage
  }

  /** The reply built from the backend's outcome. */
  function Relay(cfg: Config, outcome: Upstream): (r: Reply)
    ensures forall k :: k in CorsOf(cfg) ==> k in r.headers
    ensures forall k :: k in r.headers ==> Lower(k) !in ResponseBlocked
    ensures r.isBase64Encoded ==> r.body.Some? && outcome.Answered?
                                  && Base64.Decode(r.body.value) == outcome.body
  {
    match outcome
    case Answered(status, headers, octets) =>
      var (body, isBase64) := EncodeBody(ContentType(headers), octets);
      Reply(status, Spread(CorsOf(cfg), SanitizeResponse(headers)), Some(body), isBase64)
    case Threw(error) =>
      JsonReply(cfg, 502, FailureMessage(error))
  }

  /** The request the proxy sends to the backend at `base`. */
  function Forward(base: string, event: Inbound): (out: Outbound)
    ensures out.verb == event.httpMethod
    ensures out.body.Some? ==> ShouldHaveBody(out.verb)
  {
    Outbound(
      BuildTargetUrl(base, PathSuffix(event.path), event.rawQuery),
      event.httpMethod,
      SanitizeRequest(event.headers),
      if ShouldHaveBody(event.httpMethod) then InboundOctets(event.body, event.isBase64Encoded) else None)
  }

  /** `handler`. */
  function Handle(cfg: Config, event: Inbound, outcome: Upstream): (x: Exchange)
    ensures forall k :: k in CorsOf(cfg) ==> k in x.reply.headers
    ensures forall k :: k in x.reply.headers ==> Lower(k) !in ResponseBlocked
    ensures x.sent.Some? ==> x.sent.value.body.Some? ==> ShouldHaveBody(x.sent.value.verb)
    ensures x.reply.isBase64Encoded ==> x.reply.body.Some? && outcome.Answered?
                                        && Base64.Decode(x.reply.body.value) == outcome.body
  {
    if event.httpMethod == "OPTIONS" then
      Exchange(None, Reply(204, CorsOf(cfg), None, false))
    else if cfg.backendUrl.None? || cfg.backendUrl.value == "" then
      Exchange(None, JsonReply(cfg, 500, NotConfiguredMessage))
    else
      Exchange(Some(Forward(cfg.backendUrl.value, event)), Relay(cfg, outcome))
  }

  /** With `RATE_ATLAS_BACKEND_URL` unset, a non-empty `API_BASE_URL` is the backend:
      every non-preflight request goes to the target built on it. */
  lemma FallbackBackend(env: Environment, event: Inbound, outcome: Upstream)
    requires env.rateAtlasBackendUrl.None?
    requires env.apiBaseUrl.Some? && env.apiBaseUrl.value != ""
    requires event.httpMethod != "OPTIONS"
    ensures var x := Handle(ConfigOf(env), event, outcome);
      && x.sent.Some?
      && x.sent.value.url == BuildTargetUrl(env.apiBaseUrl.value, PathSuffix(event.path), event.rawQuery)
  {
  }

  /** A non-empty `RATE_ATLAS_BACKEND_URL` is the backend, whatever `API_BASE_URL`
      says. */
  lemma PrimaryBackend(env: Environment, event: Inbound, outcome: Upstream)
    requires env.rateAtlasBackendUrl.Some? && env.rateAtlasBackendUrl.value != ""
    requires event.httpMethod != "OPTIONS"
    ensures var x := Handle(ConfigOf(env), event, outcome);
      && x.sent.Some?
      && x.sent.value.url == BuildTargetUrl(env.rateAtlasBackendUrl.value, PathSuffix(event.path), event.rawQuery)
  {
  }

  /** The allowed origin is `RATE_ATLAS_CORS_ORIGIN` whenever it is set, even to the
      empty string, and `*` only when it is unset. */
  lemma CorsOrigin(env: Environment)
    ensures var cors := CorsOf(ConfigOf(env));
      && "Access-Control-Allow-Origin" in cors
      && (env.rateAtlasCorsOrigin.None? ==> cors["Access-Control-Allow-Origin"] == "*")
      && (env.rateAtlasCorsOrigin.Some? ==> cors["Access-Control-Allow-Origin"] == env.rateAtlasCorsOrigin.value)
  {
  }

  /** `??` falls through only for an unset variable: a `RATE_ATLAS_BACKEND_URL` set to
      the empty string hides `API_BASE_URL` and leaves the proxy unconfigured. */
  lemma EmptyPrimaryBackend(env: Environment, event: Inbound, outcome: Upstream)
    requires env.rateAtlasBackendUrl == Some("")
    requires event.httpMethod != "OPTIONS"
    ensures var x := Handle(ConfigOf(env), event, outcome);
      x.sent.None? && x.reply.statusCode == 500
  {
  }

  /** A preflight `OPTIONS` request (exact, case-sensitive match) is answered 204 with
      exactly the CORS headers and no body, configured or not, and the backend is
      never contacted. */
  lemma Preflight(cfg: Config, event: Inbound, outcome: Upstream)
    requires event.httpMethod == "OPTIONS"
    ensures Handle(cfg, event, outcome) == Exchange(None, Reply(204, CorsOf(cfg), None, false))
  {
  }

  /** Without a non-empty backend URL every other request is answered 500 with the
      CORS headers, a JSON content type and the fixed message, and nothing is sent. */
  lemma NotConfigured(cfg: Config, event: Inbound, outcome: Upstream)
    requires event.httpMethod != "OPTIONS"
    requires cfg.backendUrl.None? || cfg.backendUrl.value == ""
    ensures var x := Handle(cfg, event, outcome);
      && x.sent.None?
      && x.reply.statusCode == 500
      && x.reply.headers == Spread(CorsOf(cfg), map["Content-Type" := "application/json"])
      && x.reply.body.Some? && Json.MessageOf(x.reply.body.value) == Some(NotConfiguredMessage)
  {
  }

  /** With a backend configured, every non-preflight request is forwarded: to the
      target built from the base, the path without the mount prefix and the raw
      query; with the original method; with exactly the forwardable inbound headers;
      and with no body for GET and HEAD in any casing, the decoded event body
      otherwise. */
  lemma Forwarded(cfg: Config, event: Inbound, outcome: Upstream)
    requires event.httpMethod != "OPTIONS"
    requires cfg.backendUrl.Some? && cfg.backendUrl.value != ""
    requires DistinctNames(event.headers)
    ensures var x := Handle(cfg, event, outcome);
      && x.sent.Some?
      && x.sent.value.url == BuildTargetUrl(cfg.backendUrl.value, PathSuffix(event.path), event.rawQuery)
      && x.sent.value.verb == event.httpMethod
      && x.sent.value.headers == ForwardablePart(Record(event.headers))
      && (EqualsIgnoringCase(event.httpMethod, "GET") || EqualsIgnoringCase(event.httpMethod, "HEAD")
          ==> x.sent.value.body.None?)
      && (ShouldHaveBody(event.httpMethod)
          ==> x.sent.value.body == InboundOctets(event.body, event.isBase64Encoded))
  {
    SanitizeRequestIsFilter(event.headers);
  }

  /** The forwarded body carries the caller's octets: base64 text flagged as such is
      decoded back to the octets it encodes, and plain text is sent as UTF-8 that
      decodes back to the same text. */
  lemma ForwardedBody(octets: seq<Byte>, text: string)
    requires octets != [] && text != ""
    ensures InboundOctets(Some(Base64.Encode(octets)), true) == Some(octets)
    ensures InboundOctets(Some(text), false).Some?
    ensures Utf8.Decode(InboundOctets(Some(text), false).value) == text
  {
  }

  /** An exception from the backend call becomes a 502 with the CORS headers, a JSON
      content type and the message `Proxy request failed: <message>`, or the generic
      text when the exception carries no message. */
  lemma UpstreamFailure(cfg: Config, event: Inbound, error: Option<string>)
    requires event.httpMethod != "OPTIONS"
    requires cfg.backendUrl.Some? && cfg.backendUrl.value != ""
    ensures var x := Handle(cfg, event, Threw(error));
      && x.sent.Some?
      && x.reply.statusCode == 502
      && x.reply.headers == Spread(CorsOf(cfg), map["Content-Type" := "application/json"])
      && x.reply.body.Some?
      && Json.MessageOf(x.reply.body.value)
         == Some(if error.Some? then FailurePrefix + error.value else UnknownFailureMessage)
  {
  }

  /** A backend answer is relayed with its status; its headers except `content-length`
      (any casing) and `__proto__` are kept under their names and values, over the
      CORS headers; the body is UTF-8 text exactly when the content type is textual
      and otherwise the canonical base64 text of the backend's octets, and the flag
      says which. */
  lemma Relayed(cfg: Config, event: Inbound, status: int, headers: map<string, string>, octets: seq<Byte>)
    requires event.httpMethod != "OPTIONS"
    requires cfg.backendUrl.Some? && cfg.backendUrl.value != ""
    ensures var r := Handle(cfg, event, Answered(status, headers, octets)).reply;
      && r.statusCode == status
      && r.headers == Spread(CorsOf(cfg), SanitizeResponse(headers))
      && (forall k :: k in headers && Lower(k) != "content-length" && k != ProtoKey
            ==> k in r.headers && r.headers[k] == headers[k])
      && (forall k :: k in CorsOf(cfg) && k !in headers ==> r.headers[k] == CorsOf(cfg)[k])
      && r.body.Some?
      && (r.isBase64Encoded <==> !IsTextual(ContentType(headers)))
      && (!r.isBase64Encoded ==> r.body.value == Utf8.Decode(octets))
      && (r.isBase64Encoded ==> r.body.value == Base64.Encode(octets))
      && (r.isBase64Encoded ==> Base64.StrictDecode(r.body.value) == Some(octets))
      && (r.isBase64Encoded ==> Base64.Decode(r.body.value) == octets)
  {
  }
}

=== FILE: scenarios.dfy ===
/** Concrete runs of the handler on fixed inputs. */
module Scenarios {
  import opened Wrappers
  import opened Text
  import Utf8
  import Json
  import opened Headers
  import opened Target
  import opened Proxy

  /** The content-type test is a case-sensitive substring test on the raw header
      value: parameters do not matter, capitals do, and an absent header is binary. */
  lemma TextualExamples()
    ensures IsTextual("application/json")
    ensures IsTextual("text/html; charset=utf-8")
    ensures IsTextual("application/xml")
    ensures !IsTextual("image/png")
    ensures !IsTextual("")
    ensures !IsTextual("Application/JSON")
  {
    assert OccursAt("application/json", "application/json", 0);
    assert OccursAt("text/html; charset=utf-8", "text/", 0);
    assert OccursAt("application/xml", "application/xml", 0);
    NotIncludes("image/png", TextualTypes[0]);
    NotIncludes("image/png", TextualTypes[1]);
    NotIncludes("image/png", TextualTypes[2]);
    NotIncludes("image/png", TextualTypes[3]);
    NotIncludes("Application/JSON", TextualTypes[0]);
    NotIncludes("Application/JSON", TextualTypes[1]);
    NotIncludes("Application/JSON", TextualTypes[2]);
    NotIncludes("Application/JSON", TextualTypes[3]);
  }

  /** `sub` is not in `s` when no position of `s` starts with the first two
      characters of `sub`. */
  lemma NotIncludes(s: string, sub: string)
    requires |sub| >= 2
    requires forall i :: 0 <= i <= |s| - |sub| ==> s[i] != sub[0] || s[i + 1] != sub[1]
    ensures !Includes(s, sub)
  {
    forall i | 0 <= i <= |s| - |sub|
      ensures !OccursAt(s, sub, i)
    {
      assert s[i..i + |sub|][0] == s[i] && s[i..i + |sub|][1] == s[i + 1];
    }
  }

  const Base: string := "https://api.example.com/"

  const PostHeaders: seq<Entry> := [
    ("content-type", Some("application/json")),
    ("host", Some("proxy.example")),
    ("content-length", Some("9"))]

  const PostBody: string := "{\"k\":\"v\"}"

  const PostEvent: Inbound :=
    Inbound("POST", MountPrefix + "/foo", Some("x=1"), PostHeaders, Some(PostBody), false)

  /** `POST /foo?x=1` with body `{"k":"v"}` against base `https://api.example.com/`:
      sent to `https://api.example.com/foo?x=1` with the same body and without the
      `host` and `content-length` headers. */
  lemma PostScenario()
    ensures var x := Handle(Config(Some(Base), None), PostEvent, Threw(None));
      && x.sent.Some?
      && x.sent.value.url == "https://api.example.com/foo?x=1"
      && x.sent.value.headers == map["content-type" := "application/json"]
      && x.sent.value.body.Some? && Utf8.Decode(x.sent.value.body.value) == PostBody
  {
    PostSent();
    PostForward();
  }

  /** The POST example reaches the backend: the handler sends `Forward`'s request. */
  lemma PostSent()
    ensures Handle(Config(Some(Base), None), PostEvent, Threw(None)).sent == Some(Forward(Base, PostEvent))
  {
    assert PostEvent.httpMethod != "OPTIONS" by {
      assert |PostEvent.httpMethod| != |"OPTIONS"|;
    }
    assert Base != "";
  }

  /** The backend request of the POST example, component by component. */
  lemma PostForward()
    ensures Forward(Base, PostEvent) == Outbound("https://api.example.com/foo?x=1", "POST",
      map["content-type" := "application/json"], Some(Utf8.Encode(PostBody)))
  {
    PathSuffixMounted("/foo");
    PostUrl();
    PostHeadersForwarded();
    assert ShouldHaveBody("POST") by {
      assert LowerChar("POST"[0]) != LowerChar("HEAD"[0]);
    }
  }

  /** The target of the POST example: one `/` between base and path, query appended. */
  lemma PostUrl()
    ensures BuildTargetUrl(Base, "/foo", Some("x=1")) == "https://api.example.com/foo?x=1"
  {
  }

  /** Of the POST example's headers only `content-type` is forwarded. */
  lemma PostHeadersForwarded()
    ensures SanitizeRequest(PostHeaders) == map["content-type" := "application/json"]
  {
    var one := map["content-type" := "application/json"];
    assert |Lower("content-type")| == 12;
    assert PostHeaders[..1][..0] == [];
    assert SanitizeRequest(PostHeaders[..1]) == one;
    LowerUnchanged("host");
    assert PostHeaders[..2][..1] == PostHeaders[..1];
    assert SanitizeRequest(PostHeaders[..2]) == one;
    LowerUnchanged("content-length");
    assert PostHeaders[..2] == PostHeaders[..|PostHeaders| - 1];
  }

  /** Lower-casing leaves a string with no upper-case ASCII letter unchanged. */
  lemma LowerUnchanged(s: string)
    requires forall i :: 0 <= i < |s| ==> !('A' <= s[i] <= 'Z')
    ensures Lower(s) == s
  {
  }

  const JsonText: string := "{\"a\":1}"

  /** A JSON answer `{"a":1}` is relayed as that very text, not flagged as base64. */
  lemma JsonScenario(cfg: Config, event: Inbound)
    requires event.httpMethod != "OPTIONS"
    requires cfg.backendUrl.Some? && cfg.backendUrl.value != ""
    ensures var r := Handle(cfg, event, Answered(200, map["content-type" := "application/json"],
                                                 Utf8.Encode(JsonText))).reply;
      r.body == Some(JsonText) && !r.isBase64Encoded
  {
    var headers := map["content-type" := "application/json"];
    assert ContentType(headers) == "application/json";
    assert IsTextual("application/json") by {
      assert OccursAt("application/json", "application/json", 0);
    }
    Relayed(cfg, event, 200, headers, Utf8.Encode(JsonText));
  }

  /** A backend that sends its own `access-control-allow-origin` (lower case, as fetch
      reports names) does not replace the proxy's `Access-Control-Allow-Origin`: the
      spread keeps both, differing only in case. */
  lemma CaseVariantCorsHeaders(cfg: Config, event: Inbound, octets: seq<Bytes.Byte>)
    requires event.httpMethod != "OPTIONS"
    requires cfg.backendUrl.Some? && cfg.backendUrl.value != ""
    ensures var r := Handle(cfg, event, Answered(200, map["access-control-allow-origin" := "https://app.example"],
                                                 octets)).reply;
      && "Access-Control-Allow-Origin" in r.headers
      && r.headers["Access-Control-Allow-Origin"] == cfg.corsOrigin.Coalesce("*")
      && "access-control-allow-origin" in r.headers
      && r.headers["access-control-allow-origin"] == "https://app.example"
  {
    var upstream := map["access-control-allow-origin" := "https://app.example"];
    var r := Handle(cfg, event, Answered(200, upstream, octets)).reply;
    Relayed(cfg, event, 200, upstream, octets);
    assert |Lower("access-control-allow-origin")| != |"content-length"|;
    assert r.headers["access-control-allow-origin"] == "https://app.example";
    assert "Access-Control-Allow-Origin" != "access-control-allow-origin" by {
      assert "Access-Control-Allow-Origin"[0] != "access-control-allow-origin"[0];
    }
    assert r.headers["Access-Control-Allow-Origin"] == cfg.corsOrigin.Coalesce("*");
  }
}

=== FILE: target.dfy ===
/** How the proxy addresses the backend: the mount prefix it strips from the inbound
    path, the target URL it builds, and the rule deciding whether a request body is
    forwarded. */
module Target {
  import opened Wrappers
  import opened Text

  /** Where the hosting platform mounts the function. */
  const MountPrefix: string := "/.netlify/functions/proxy"

  /** `path.replace(/^\/\.netlify\/functions\/proxy/, "")`: the mount prefix is removed
      once when the path starts with it (not necessarily at a `/` boundary); any other
      path is forwarded whole. */
  function PathSuffix(path: string): (suffix: string)
    ensures StartsWith(path, MountPrefix) ==> MountPrefix + suffix == path
    ensures !StartsWith(path, MountPrefix) ==> suffix == path
  {
    if StartsWith(path, MountPrefix) then path[|MountPrefix|..] else path
  }

  /** A path under the mount point is forwarded as the part after the mount prefix. */
  lemma PathSuffixMounted(rest: string)
    ensures PathSuffix(MountPrefix + rest) == rest
  {
  }

  /** The base URL without one trailing `/`. */
  function NormalizeBase(base: string): (r: string)
    ensures EndsWith(base, "/") ==> r + "/" == base
    ensures !EndsWith(base, "/") ==> r == base
  {
    if EndsWith(base, "/") then base[..|base| - 1] else base
  }

  /** The path suffix without one leading `/`. */
  function NormalizeSuffix(suffix: string): (r: string)
    ensures StartsWith(suffix, "/") ==> "/" + r == suffix
    ensures !StartsWith(suffix, "/") ==> r == suffix
  {
    if StartsWith(suffix, "/") then suffix[1..] else suffix
  }

  /** `buildTargetUrl(base, pathSuffix, rawQuery)`. An absent query and an empty one
      are both falsy and add nothing. */
  function BuildTargetUrl(base: string, suffix: string, rawQuery: Option<string>): (url: string)
    ensures StartsWith(url, NormalizeBase(base))
  {
    var b := NormalizeBase(base);
    var s := NormalizeSuffix(suffix);
    var joined := if s != "" then b + "/" + s else b;
    var q := rawQuery.Coalesce("");
    if q != "" then joined + "?" + q else joined
  }

  /** The text before the first `?` of a URL and the text after it (`None` when there
      is no `?`): how the backend splits the target into path and query. */
  function SplitQuery(url: string): (r: (string, Option<string>))
    ensures r.1.None? ==> r.0 == url && '?' !in url
    ensures r.1.Some? ==> r.0 + "?" + r.1.value == url && '?' !in r.0
    decreases |url|
  {
    if url == [] then ("", None)
    else if url[0] == '?' then ("", Some(url[1..]))
    else
      var (p, q) := SplitQuery(url[1..]);
      ([url[0]] + p, q)
  }

  lemma {:induction false} SplitQueryAt(p: string, q: string)
    requires '?' !in p
    ensures SplitQuery(p + "?" + q) == (p, Some(q))
    decreases |p|
  {
    if p == [] {
      assert p + "?" + q == ['?'] + q;
    } else {
      assert (p + "?" + q)[1..] == p[1..] + "?" + q;
      SplitQueryAt(p[1..], q);
      assert [p[0]] + p[1..] == p;
    }
  }

  lemma SplitQueryNone(p: string)
    requires '?' !in p
    ensures SplitQuery(p) == (p, None)
    decreases |p|
  {
  }

  /** The backend receives the query verbatim: when neither the base nor the suffix
      contains `?`, splitting the target URL at its first `?` gives back the joined
      path and exactly the inbound query, and no query at all when it was absent or
      empty. The path part is the normalised base, followed by `/` and the suffix
      without its leading `/` when that is non-empty. */
  lemma TargetUrlParts(base: string, suffix: string, rawQuery: Option<string>)
    requires '?' !in base && '?' !in suffix
    ensures var (path, query) := SplitQuery(BuildTargetUrl(base, suffix, rawQuery));
      && path == (if NormalizeSuffix(suffix) == "" then NormalizeBase(base)
                  else NormalizeBase(base) + "/" + NormalizeSuffix(suffix))
      && query == (if rawQuery.Coalesce("") == "" then None else rawQuery)
  {
    var b := NormalizeBase(base);
    var s := NormalizeSuffix(suffix);
    assert forall i :: 0 <= i < |b| ==> b[i] == base[i];
    assert forall i :: 0 <= i < |s| ==> s[i] == suffix[|suffix| - |s| + i];
    var joined := if s != "" then b + "/" + s else b;
    assert '?' !in joined;
    if rawQuery.Coalesce("") != "" {
      SplitQueryAt(joined, rawQuery.value);
    } else {
      SplitQueryNone(joined);
    }
  }

  /** A base with its own query keeps everything the proxy appends inside that query:
      the backend's path is the base's path alone, whatever the suffix, and the
      query is all of the target after the base's `?`. */
  lemma BaseWithQuery(path: string, query: string, suffix: string, rawQuery: Option<string>)
    requires '?' !in path
    ensures var url := BuildTargetUrl(path + "?" + query, suffix, rawQuery);
      && StartsWith(url, path + "?")
      && SplitQuery(url) == (path, Some(url[|path| + 1..]))
  {
    var base := path + "?" + query;
    var url := BuildTargetUrl(base, suffix, rawQuery);
    var b := NormalizeBase(base);
    if EndsWith(base, "/") {
      assert base[|base| - 1] == base[|base| - 1..][0] == '/';
      assert b == base[..|base| - 1];
    }
    assert |b| >= |path| + 1 && b[..|path| + 1] == base[..|path| + 1];
    assert base[..|path| + 1] == path + "?";
    assert url[..|b|] == b;
    assert url[..|path| + 1] == url[..|b|][..|path| + 1];
    assert url == url[..|path| + 1] + url[|path| + 1..];
    SplitQueryAt(path, url[|path| + 1..]);
  }

  /** For example, base `https://h/api?code=K` with path `/foo` and query `x=1` gives
      the target `https://h/api?code=K/foo?x=1`, which the backend reads as the path
      `https://h/api` and the query `code=K/foo?x=1`. */
  lemma BaseWithQueryExample()
    ensures var url := BuildTargetUrl("https://h/api?code=K", "/foo", Some("x=1"));
      && url == "https://h/api?code=K/foo?x=1"
      && SplitQuery(url) == ("https://h/api", Some("code=K/foo?x=1"))
  {
    var path, query, suffix := "https://h/api", "code=K", "/foo";
    assert path + "?" + query == "https://h/api?code=K";
    var url := BuildTargetUrl(path + "?" + query, suffix, Some("x=1"));
    assert NormalizeBase(path + "?" + query) == path + "?" + query by {
      assert (path + "?" + query)[|path + "?" + query| - 1..] != "/";
    }
    assert NormalizeSuffix(suffix) == "foo" by {
      assert suffix[..1] == "/";
    }
    assert url == "https://h/api?code=K/foo?x=1";
    BaseWithQuery(path, query, suffix, Some("x=1"));
    assert url[|path| + 1..] == "code=K/foo?x=1";
  }

  /** A path suffix with its own `?` ends the backend's path there: the text after it
      becomes the start of the query, and the inbound query follows it after a
      second `?`. */
  lemma SuffixWithQuery(base: string, path: string, query: string, rawQuery: Option<string>)
    requires '?' !in base && '?' !in path
    ensures SplitQuery(BuildTargetUrl(base, path + "?" + query, rawQuery))
      == (NormalizeBase(base) + "/" + NormalizeSuffix(path),
          Some(query + (if rawQuery.Coalesce("") != "" then "?" + rawQuery.value else "")))
  {
    var b, suffix := NormalizeBase(base), path + "?" + query;
    var p := NormalizeSuffix(path);
    assert NormalizeSuffix(suffix) == p + "?" + query by {
      if path == [] {
        assert suffix[0] == '?';
      } else {
        assert suffix[..1] == path[..1];
      }
    }
    assert forall i :: 0 <= i < |b| ==> b[i] == base[i];
    assert forall i :: 0 <= i < |p| ==> p[i] == path[|path| - |p| + i];
    var tail := if rawQuery.Coalesce("") != "" then "?" + rawQuery.value else "";
    assert BuildTargetUrl(base, suffix, rawQuery) == (b + "/" + p) + "?" + (query + tail);
    SplitQueryAt(b + "/" + p, query + tail);
  }

  /** For example, suffix `/a?b` with query `x=1` reaches base `https://h` as path
      `https://h/a` and query `b?x=1`. */
  lemma SuffixWithQueryExample()
    ensures SplitQuery(BuildTargetUrl("https://h", "/a?b", Some("x=1"))) == ("https://h/a", Some("b?x=1"))
  {
    SuffixWithQuery("https://h", "/a", "b", Some("x=1"));
    assert "/a" + "?" + "b" == "/a?b";
    assert NormalizeBase("https://h") == "https://h" by {
      assert "https://h"[|"https://h"| - 1..] != "/";
    }
    assert NormalizeSuffix("/a") == "a" by {
      assert "/a"[..1] == "/";
    }
    assert "https://h" + "/" + "a" == "https://h/a";
    assert Some("x=1").Coalesce("") != "";
    assert "b" + ("?" + "x=1") == "b?x=1";
  }

  /** Only one trailing `/` of the base is removed: a base ending in `//` keeps one of
      them, and the target has `//` at the seam. */
  lemma DoubleSlashBase()
    ensures BuildTargetUrl("h//", "/foo", None) == "h//foo"
  {
    assert NormalizeBase("h//") == "h/" by {
      assert "h//"[2..] == "/";
    }
    assert NormalizeSuffix("/foo") == "foo" by {
      assert "/foo"[..1] == "/";
    }
  }

  /** A suffix of `""` or `"/"` adds no path segment, and with no query the target is
      the base without its trailing `/`. */
  lemma EmptySuffixTarget(base: string, suffix: string)
    requires suffix == "" || suffix == "/"
    ensures BuildTargetUrl(base, suffix, None) == NormalizeBase(base)
    ensures BuildTargetUrl(base, suffix, Some("")) == NormalizeBase(base)
  {
  }

  /** Base and suffix meet at exactly one `/`: the character after the normalised base
      is `/` and the next one is not, unless the suffix itself began with `//`, and the
      base loses at most its one trailing `/`. */
  lemma SingleSlashJoin(base: string, suffix: string, rawQuery: Option<string>)
    requires NormalizeSuffix(suffix) != ""
    requires !StartsWith(suffix, "//")
    ensures var url, n := BuildTargetUrl(base, suffix, rawQuery), |NormalizeBase(base)|;
      n + 1 < |url| && url[..n] == NormalizeBase(base) && url[n] == '/' && url[n + 1] != '/'
      && n + 1 >= |base|
  {
  }

  /** `shouldHaveBody`: a body is forwarded for every method whose ASCII upper-case
      form is neither `GET` nor `HEAD`. */
  function ShouldHaveBody(verb: string): (r: bool)
    ensures r <==> !(EqualsIgnoringCase(verb, "GET") || EqualsIgnoringCase(verb, "HEAD"))
  {
    UpperIsCaseInsensitive(verb, "GET");
    UpperIsCaseInsensitive(verb, "HEAD");
    var m := Upper(verb);
    m != "GET" && m != "HEAD"
  }

  /** Upper-casing and comparing with an upper-case word is comparison up to case. */
  lemma UpperIsCaseInsensitive(s: string, word: string)
    requires forall i :: 0 <= i < |word| ==> 'A' <= word[i] <= 'Z'
    ensures Upper(s) == word <==> EqualsIgnoringCase(s, word)
  {
  }
}

=== FILE: text.dfy ===
/** String helpers over `seq<char>`: ASCII case mapping and the prefix, suffix and
    substring tests the proxy performs with `startsWith`, `endsWith`, `includes`
    and a start-anchored regular expression. */
module Text {

  /** ASCII lower-casing of one character; every other character is unchanged. */
  function LowerChar(c: char): char {
    if 'A' <= c <= 'Z' then (c as int + 32) as char else c
  }

  /** ASCII upper-casing of one character; every other character is unchanged. */
  function UpperChar(c: char): char {
    if 'a' <= c <= 'z' then (c as int - 32) as char else c
  }

  function Lower(s: string): (r: string)
    ensures |r| == |s|
    ensures forall i :: 0 <= i < |s| ==> r[i] == LowerChar(s[i])
  {
    seq(|s|, i requires 0 <= i < |s| => LowerChar(s[i]))
  }

  function Upper(s: string): (r: string)
    ensures |r| == |s|
    ensures forall i :: 0 <= i < |s| ==> r[i] == UpperChar(s[i])
  {
    seq(|s|, i requires 0 <= i < |s| => UpperChar(s[i]))
  }

  /** `a` and `b` are the same word up to ASCII case. */
  predicate EqualsIgnoringCase(a: string, b: string) {
    |a| == |b| && forall i :: 0 <= i < |a| ==> LowerChar(a[i]) == LowerChar(b[i])
  }

  predicate StartsWith(s: string, prefix: string) {
    |prefix| <= |s| && s[..|prefix|] == prefix
  }

  predicate EndsWith(s: string, suffix: string) {
    |suffix| <= |s| && s[|s| - |suffix|..] == suffix
  }

  /** `sub` occurs in `s` starting at index `i`. */
  predicate OccursAt(s: string, sub: string, i: int) {
    0 <= i && i + |sub| <= |s| && s[i..i + |sub|] == sub
  }

  /** JavaScript's `String.prototype.includes`: `sub` occurs somewhere in `s`
      (the empty string occurs in every string). */
  predicate Includes(s: string, sub: string) {
    exists i :: 0 <= i <= |s| - |sub| && OccursAt(s, sub, i)
  }

  /** The UTF-16 code units of a character, as a JavaScript string stores it: one
      unit in the Basic Multilingual Plane, a surrogate pair above it. */
  function UnitsOf(c: char): (r: seq<int>)
    ensures (c as int) < 0x10000 ==> r == [c as int]
    ensures 1 <= |r| <= 2
  {
    var n := c as int;
    if n < 0x10000 then [n] else [0xD800 + (n - 0x10000) / 0x400, 0xDC00 + (n - 0x10000) % 0x400]
  }

  /** The UTF-16 code units of a string. */
  function CodeUnits(s: string): (r: seq<int>)
    ensures |s| <= |r| <= 2 * |s|
    decreases |s|
  {
    if s == [] then [] else UnitsOf(s[0]) + CodeUnits(s[1..])
  }

  lemma {:induction false} CodeUnitsAppend(a: string, b: string)
    ensures CodeUnits(a + b) == CodeUnits(a) + CodeUnits(b)
    decreases |a|
  {
    if a != [] {
      assert (a + b)[1..] == a[1..] + b;
      CodeUnitsAppend(a[1..], b);
    } else {
      assert a + b == b;
    }
  }
}

=== FILE: utf8.dfy ===
/** UTF-8 as Node's `Buffer` applies it: `Buffer.from(text)` encodes a string, and
    `buffer.toString("utf8")` decodes octets, replacing every maximal ill-formed
    subsequence with U+FFFD (the WHATWG "UTF-8 decode" algorithm, which follows the
    well-formed byte sequences of table 3-7 of the Unicode Standard). */
module Utf8 {
  import opened Bytes

  const Replacement: char := '�'

  predicate IsContinuation(b: Byte) {
    0x80 <= b <= 0xBF
  }

  /** The UTF-8 octets of one scalar value. */
  function EncodeChar(c: char): (r: seq<Byte>)
    ensures 1 <= |r| <= 4
  {
    var n := c as int;
    if n < 0x80 then [n]
    else if n < 0x800 then [0xC0 + n / 64, 0x80 + n % 64]
    else if n < 0x10000 then [0xE0 + n / 4096, 0x80 + (n / 64) % 64, 0x80 + n % 64]
    else [0xF0 + n / 262144, 0x80 + (n / 4096) % 64, 0x80 + (n / 64) % 64, 0x80 + n % 64]
  }

  /** `Buffer.from(s)`: the concatenated UTF-8 octets of the characters of `s`. */
  function Encode(s: string): (r: seq<Byte>)
    ensures |s| <= |r| <= 4 * |s|
    ensures Decode(r) == s
    decreases |s|
  {
    if s == [] then []
    else
      var head, tail := EncodeChar(s[0]), Encode(s[1..]);
      DecodeOneEncodeChar(s[0], tail);
      assert (head + tail)[|head|..] == tail;
      head + tail
  }

  /** Reads one character from the front of `b`: a well-formed sequence gives its
      scalar value, anything else gives U+FFFD and consumes the longest prefix that
      could still have begun a well-formed sequence (at least one octet). Returns the
      character and the number of octets consumed. */
  function DecodeOne(b: seq<Byte>): (r: (char, nat))
    requires |b| > 0
    ensures 1 <= r.1 <= |b|
  {
    var b0: int := b[0];
    var b1: int := if |b| > 1 then b[1] else 0;
    var b2: int := if |b| > 2 then b[2] else 0;
    var b3: int := if |b| > 3 then b[3] else 0;
    if b0 < 0x80 then
      (b0 as char, 1)
    else if 0xC2 <= b0 <= 0xDF then
      if |b| < 2 || !IsContinuation(b1) then (Replacement, 1)
      else (((b0 - 0xC0) * 64 + (b1 - 0x80)) as char, 2)
    else if 0xE0 <= b0 <= 0xEF then
      var lo := if b0 == 0xE0 then 0xA0 else 0x80;
      var hi := if b0 == 0xED then 0x9F else 0xBF;
      if |b| < 2 || !(lo <= b1 <= hi) then (Replacement, 1)
      else if |b| < 3 || !IsContinuation(b2) then (Replacement, 2)
      else (((b0 - 0xE0) * 4096 + (b1 - 0x80) * 64 + (b2 - 0x80)) as char, 3)
    else if 0xF0 <= b0 <= 0xF4 then
      var lo := if b0 == 0xF0 then 0x90 else 0x80;
      var hi := if b0 == 0xF4 then 0x8F else 0xBF;
      if |b| < 2 || !(lo <= b1 <= hi) then (Replacement, 1)
      else if |b| < 3 || !IsContinuation(b2) then (Replacement, 2)
      else if |b| < 4 || !IsContinuation(b3) then (Replacement, 3)
      else (((b0 - 0xF0) * 262144 + (b1 - 0x80) * 4096 + (b2 - 0x80) * 64 + (b3 - 0x80)) as char, 4)
    else
      (Replacement, 1)
  }

  /** `buffer.toString("utf8")`. */
  function Decode(b: seq<Byte>): (s: string)
    ensures |s| <= |b|
    decreases |b|
  {
    if b == [] then ""
    else
      var (c, k) := DecodeOne(b);
      [c] + Decode(b[k..])
  }

  /** The encoder's octets for a character are read back as that character, whatever
      follows them. */
  lemma DecodeOneEncodeChar(c: char, rest: seq<Byte>)
    ensures DecodeOne(EncodeChar(c) + rest) == (c, |EncodeChar(c)|)
  {
    var n := c as int;
    if n < 0x80 {
    } else if n < 0x800 {
      TwoOctets(n);
    } else if n < 0x10000 {
      ThreeOctets(n);
    } else {
      FourOctets(n);
    }
  }

  lemma TwoOctets(n: int)
    requires 0x80 <= n < 0x800
    ensures 0xC2 <= 0xC0 + n / 64 <= 0xDF && 0 <= n % 64 < 64
    ensures (n / 64) * 64 + n % 64 == n
  {
  }

  lemma ThreeOctets(n: int)
    requires 0x800 <= n < 0x10000
    ensures 0xE0 <= 0xE0 + n / 4096 <= 0xEF
    ensures n / 4096 == 0 ==> (n / 64) % 64 >= 0x20
    ensures n / 4096 == 13 ==> (n / 64) % 64 < 0x20 || 0xD800 <= n < 0xE000
    ensures (n / 4096) * 4096 + ((n / 64) % 64) * 64 + n % 64 == n
  {
  }

  lemma FourOctets(n: int)
    requires 0x10000 <= n < 0x110000
    ensures 0xF0 <= 0xF0 + n / 262144 <= 0xF4
    ensures n / 262144 == 0 ==> (n / 4096) % 64 >= 0x10
    ensures n / 262144 == 4 ==> (n / 4096) % 64 < 0x10
    ensures (n / 262144) * 262144 + ((n / 4096) % 64) * 4096 + ((n / 64) % 64) * 64 + n % 64 == n
  {
  }
}

=== FILE: wrappers.dfy ===
/** The optional value used wherever the proxied program reads a value that may be
    `undefined`: an environment variable, a header value, a request body, a query string. */
module Wrappers {

  datatype Option<+T> = None | Some(value: T) {

    /** `x ?? fallback`: JavaScript's nullish coalescing, which falls through to
        `fallback` only for an undefined `x`. */
    function Coalesce(fallback: T): (r: T)
      ensures Some? ==> r == value
      ensures None? ==> r == fallback
    {
      if Some? then value else fallback
    }
  }
}
